=== FILE: README.md ===
# Card wallpaper compositor — a Dafny model

This project models the native wallpaper engine of a desktop memo/task
application (`src-tauri/src/wallpaper_engine.rs`). The engine takes a decoded
background image and a render request and produces the wallpaper in these
steps:

1. It copies the image into a fresh premultiplied-RGBA pixmap, pixel by pixel.
2. It darkens the whole canvas with a translucent black rectangle.
3. It stacks up to four translucent, rounded "cards" in one corner of the
   screen. Each card has a 1px border, and a coloured pin dot if the card is
   pinned.

A separate helper, `is_valid_image`, decides from a path's extension
whether the file can serve as a background.

Modules:

- `Base` holds the byte type, `Option`/`Result` and `Min`.
- `ImageFiles` models `is_valid_image`. It follows Rust's rules for
  `Path::file_name` and `Path::extension` on `/`-separated paths, then
  lowercases the extension and compares it with the six image formats.
- `CardLayout` holds the request types, the constants and the card height
  estimate. It also gives the closed-form position of every drawn card. This
  is the geometry `render_cards` computes with its running `current_y`.
- `Paths` holds the path verbs and a `PathBuilder` class that appends one
  verb per push. It also holds the rounded-rectangle outline and its
  geometric properties: shape, closure, containment and clockwise
  orientation.
- `Pixmaps` holds colours and the `Pixmap` class. The class has a pixel
  `array` plus a log `draws` of the draw calls issued against it; the
  rasteriser behind those calls is outside the model. The module also holds
  the row-major index `y * width + x` and the background copy loop.
- `Compositor` holds the colour choices and the three drawing helpers.
  Each helper builds its path through a `PathBuilder`. The module also
  holds `render_cards` as a loop with a running y, and the whole
  `render_wallpaper` pipeline up to PNG encoding.

Every drawing method is proved against a specification function of the
draw calls it must append (`CardDrawCalls`, `DrawsUpTo`, `CardsDrawCalls`).
The lemmas then establish properties of those functions: what is drawn, in
which order, where, and in which colour.

Behaviours of the code worth stating outright, since a reader might expect
otherwise:

- A zero-sized background fails with "Failed to create pixmap", which comes
  from `Pixmap::new`. It is not reported as a decoding error.
- A pixel whose red, green or blue exceeds its alpha makes the copy loop
  panic instead of returning an error, and no image results. `to_rgba8`
  yields straight (non-premultiplied) colours, and
  `PremultipliedColorU8::from_rgba(..).unwrap()` panics on the first such
  pixel. The model reports this as the `Panic` outcome; the partly copied
  pixmap it describes is never visible to a caller.
- No card path is ever "skipped as degenerate". The outline always has ten
  verbs, and the builder only refuses a path of fewer than two verbs.
- On an 800x600 canvas, a single bottom-right card of width 280 with a
  title and 29 ASCII bytes of content fits its content on one 30-byte line,
  so it is 76px tall and lands at (488, 492).

## Model

| member | source | states |
|---|---|---|
| ImageFiles.IsValidImage | src-tauri/src/wallpaper_engine.rs:61-68 | Only a path at least as long as `a.png` can be a valid image (a non-empty stem, a dot and a three-letter format at least). |
| ImageFiles.FileName | src-tauri/src/wallpaper_engine.rs:62 | The file name, when there is one, is a normal component: non-empty, neither `.` nor `..`, free of `/` and no longer than the path. |
| ImageFiles.Extension | src-tauri/src/wallpaper_engine.rs:62 | There is no extension exactly when the name is `..` or has no dot after its first character. Otherwise the extension is the dot-free text after the last dot, preceded by a non-empty stem. |
| ImageFiles.NamedFileIsImageIff | src-tauri/src/wallpaper_engine.rs:61-68 | A file `stem.ext`, alone or after a directory, is a valid image exactly when `ext` lowercased is png, jpg, jpeg, bmp, gif or webp. |
| ImageFiles.NoExtensionIsInvalid | src-tauri/src/wallpaper_engine.rs:62-67 | A file name without any dot has no extension, so it is never a valid image. |
| ImageFiles.HiddenFileIsInvalid | src-tauri/src/wallpaper_engine.rs:62-67 | A name whose only dot is its first character (such as `.png`) has no extension, so it is rejected, alone or after a directory. |
| ImageFiles.ParentComponentIsInvalid | src-tauri/src/wallpaper_engine.rs:62 | A path ending in `..` (or `..` itself) has no file name, so it is never a valid image. |
| ImageFiles.TrailingComponentsIgnored | src-tauri/src/wallpaper_engine.rs:62 | A trailing `/` or `/.` does not change the file name the path has, and so does not change the verdict. |
| ImageFiles.FileNameOfComponent | src-tauri/src/wallpaper_engine.rs:62 | The file name of `dir/name` and of `name` is `name` when that is a normal component. |
| ImageFiles.ExtensionOfStem | src-tauri/src/wallpaper_engine.rs:62 | The extension of `stem.ext`, with a non-empty stem and a dot-free ext, is `ext`. |
| ImageFiles.LowercaseNormalises | src-tauri/src/wallpaper_engine.rs:63 | The lowercased extension contains no ASCII capital, lowercasing twice equals lowercasing once, and lowercasing after upper-casing equals lowercasing alone. |
| ImageFiles.CaseInsensitive | src-tauri/src/wallpaper_engine.rs:62-64 | Uppercasing the whole path never changes the verdict. |
| CardLayout.Utf8LengthBounds | src-tauri/src/wallpaper_engine.rs:197 | The content length the estimate uses is its UTF-8 byte count: between 1 and 4 bytes per character, and equal to the character count exactly for ASCII text. |
| CardLayout.ContentLines | src-tauri/src/wallpaper_engine.rs:197 | The line count is at least one and is the least count whose 30-byte lines hold the content, i.e. max(1, ceil(n / 30)). |
| CardLayout.CardHeight | src-tauri/src/wallpaper_engine.rs:194-201 | A card is at least 52px tall and a multiple of 4. It is 32px of padding plus 20px per content line, plus 24px when the title is non-empty. |
| CardLayout.StartX | src-tauri/src/wallpaper_engine.rs:117-125 | Right anchors put the column's right edge 32px from the canvas's right edge; left anchors put its left edge 32px from the canvas's left edge. |
| CardLayout.StartY | src-tauri/src/wallpaper_engine.rs:117-125 | The running y starts 32px above the canvas bottom for bottom anchors and 32px below the canvas top for top anchors. |
| CardLayout.CardY | src-tauri/src/wallpaper_engine.rs:127-144 | Card i lies at least 64i px (each earlier card's 52px minimum plus its 12px gap) inside the anchored margin: a bottom-anchored card's bottom edge is that far above the bottom margin line, a top-anchored card's top edge that far below the top one. |
| CardLayout.CardBox | src-tauri/src/wallpaper_engine.rs:130-159 | Card i's box is `card_width` wide, at least 52px tall, and lies at least 64i px inside the anchored margin. |
| CardLayout.Layout | src-tauri/src/wallpaper_engine.rs:130-144 | One box per drawn card, all in the same column: the same x and the same width `card_width`. |
| CardLayout.LayoutColumns | src-tauri/src/wallpaper_engine.rs:117-130 | Exactly min(4, n) cards are placed, one per leading card. All share one x: 32px from the left edge for left anchors, or `width - card_width - 32` for right anchors. Each card is `card_width` wide and as tall as its estimate. |
| CardLayout.LayoutFirstCard | src-tauri/src/wallpaper_engine.rs:117-144 | The first card's bottom edge is 32px above the canvas bottom for bottom anchors. Its top edge is 32px below the canvas top for top anchors. |
| CardLayout.LayoutGap | src-tauri/src/wallpaper_engine.rs:134-144 | Consecutive cards are exactly 12px apart. Bottom anchors stack upward and top anchors stack downward. |
| CardLayout.LayoutDisjoint | src-tauri/src/wallpaper_engine.rs:134-144 | Any two drawn cards are vertically disjoint, at least 12px apart, with the later card further from the anchor. |
| CardLayout.LayoutOrder | src-tauri/src/wallpaper_engine.rs:134-144 | Later cards are strictly higher (bottom anchors) or strictly lower (top anchors) than earlier ones. |
| CardLayout.LayoutIgnoresLaterCards | src-tauri/src/wallpaper_engine.rs:130 | Cards after the fourth never affect the placement of the drawn ones. |
| Paths.PathBuilder.constructor | src-tauri/src/wallpaper_engine.rs:212 | A new builder holds no verbs. |
| Paths.PathBuilder.MoveTo | src-tauri/src/wallpaper_engine.rs:215 | Appends exactly one move verb and keeps the earlier verbs. |
| Paths.PathBuilder.LineTo | src-tauri/src/wallpaper_engine.rs:217-229 | Appends exactly one line verb and keeps the earlier verbs. |
| Paths.PathBuilder.QuadTo | src-tauri/src/wallpaper_engine.rs:219-231 | Appends exactly one quadratic verb with its control and end points and keeps the earlier verbs. |
| Paths.PathBuilder.Close | src-tauri/src/wallpaper_engine.rs:232 | Appends exactly one close verb and keeps the earlier verbs. |
| Paths.PathBuilder.Finish | src-tauri/src/wallpaper_engine.rs:234 | `finish` yields the pushed verbs exactly when there are at least two of them, and nothing otherwise. |
| Paths.RoundedRectPath | src-tauri/src/wallpaper_engine.rs:212-232 | The outline is a single contour of ten verbs: a move, eight line or quad verbs whose last ends at the move's point, and a close. |
| Paths.RoundedRectPathWithinRows | src-tauri/src/wallpaper_engine.rs:212-232 | When 0 ≤ r and 2r ≤ h, every point of the outline lies between the box's top and bottom rows, whatever the width. |
| Paths.RoundedRectPathShape | src-tauri/src/wallpaper_engine.rs:212-232 | The outline is a move to (x+r, y), four line/quad pairs and a close. Each quad's control point is one of the rectangle's corners, visited clockwise from top-right. |
| Paths.RoundedRectVertices | src-tauri/src/wallpaper_engine.rs:215-231 | The on-curve points are the eight tangent points, clockwise from (x+r, y), ending back at (x+r, y). |
| Paths.RoundedRectPathClosed | src-tauri/src/wallpaper_engine.rs:215-232 | The last curve ends where the move started, and the final verb is a close. |
| Paths.RoundedRectPathContained | src-tauri/src/wallpaper_engine.rs:212-232 | When 0 ≤ r, 2r ≤ w and 2r ≤ h, every end point and control point lies inside the w×h rectangle. |
| Paths.RoundedRectPathClockwise | src-tauri/src/wallpaper_engine.rs:214-231 | For a fitting radius and a non-empty box, the shoelace sum of the vertices is 2(wh − 2r²) > 0. So the outline winds clockwise on screen and encloses an octagon of that area. |
| Pixmaps.PixelIndexBijection | src-tauri/src/wallpaper_engine.rs:87-88 | `y * width + x` maps the width×height grid one-to-one onto the buffer slots 0..width·height−1. It stays in range, no two pixels share a slot, and every slot is hit by its column and row. |
| Pixmaps.PixelIndexInRange | src-tauri/src/wallpaper_engine.rs:88 | The index of an in-grid pixel is within the buffer. |
| Pixmaps.PremultipliedPrefix | src-tauri/src/wallpaper_engine.rs:89-91 | It counts the leading pixels that convert to a premultiplied colour (no channel above alpha); the next pixel, if any, is the one that fails to convert. |
| Pixmaps.Pixmap.constructor | src-tauri/src/wallpaper_engine.rs:82 | A new pixmap of a positive size is fully transparent and has no draw calls yet. |
| Pixmaps.NewPixmap | src-tauri/src/wallpaper_engine.rs:82-83 | A pixmap is created exactly when both dimensions are positive; it is fresh, transparent and of the requested size. |
| Pixmaps.Pixmap.FillRect | src-tauri/src/wallpaper_engine.rs:98 | Filling a rectangle appends exactly that call to the pixmap's draw log. |
| Pixmaps.Pixmap.FillPath | src-tauri/src/wallpaper_engine.rs:238 | Filling a path appends exactly that call to the draw log. |
| Pixmaps.Pixmap.StrokePath | src-tauri/src/wallpaper_engine.rs:270-274 | Stroking a path appends exactly that call, with its stroke width, to the draw log. |
| Pixmaps.Pixmap.FillCircle | src-tauri/src/wallpaper_engine.rs:280-286 | Filling a circle appends exactly that call to the draw log. |
| Pixmaps.CopyBackground | src-tauri/src/wallpaper_engine.rs:86-92 | The copy completes exactly when every pixel is premultiplied-valid. Every pixel before the first invalid one is copied verbatim to its slot, and every later slot is untouched. |
| Compositor.SaturatingCastU8 | src-tauri/src/wallpaper_engine.rs:155-157 | `as u8` sends negatives to 0, sends values ≥ 255 to 255, and otherwise truncates to the integer part. |
| Compositor.FillAlphaRange | src-tauri/src/wallpaper_engine.rs:154-158 | For an opacity in [0, 1] the panel is white with alpha ⌊40·opacity⌋ ≤ 40 on a dark desktop, and black with alpha ⌊30·opacity⌋ ≤ 30 on a light one. |
| Compositor.ColorTable | src-tauri/src/wallpaper_engine.rs:169-182 | The pins are amber (251,191,36,255) for memos and blue (96,165,250,255) for tasks, both opaque and distinct. The border is (255,255,255,50) on dark and (0,0,0,20) on light. |
| Compositor.FillColor | src-tauri/src/wallpaper_engine.rs:154-158 | The panel is white on a dark desktop and black on a light one. For an opacity in [0, 1] its alpha is at most 40 (dark) or 30 (light), and a non-positive opacity gives alpha 0. |
| Compositor.BorderColor | src-tauri/src/wallpaper_engine.rs:169-173 | The border is neutral (equal red, green and blue): white exactly on a dark desktop, black exactly on a light one, and never opaque. |
| Compositor.PinColor | src-tauri/src/wallpaper_engine.rs:179-182 | A pin is opaque, red-dominant exactly for memos and blue-dominant for tasks. |
| Compositor.CardDrawCallsShape | src-tauri/src/wallpaper_engine.rs:146-190 | One card's calls are a fill then a 1px stroke of the same outline of its box, then one opaque circle exactly when the card is pinned. |
| Compositor.DrawsUpTo | src-tauri/src/wallpaper_engine.rs:130-190 | The first k cards issue between 2k and 3k draw calls. |
| Compositor.CardsDrawCalls | src-tauri/src/wallpaper_engine.rs:130-190 | The cards issue between 2 and 3 calls per drawn card, and none exactly when the card list is empty. |
| Compositor.DrawRoundedRect | src-tauri/src/wallpaper_engine.rs:203-240 | Building the outline verb by verb and filling it appends one fill of exactly the rounded-rectangle outline, in the given colour. |
| Compositor.DrawRoundedRectStroke | src-tauri/src/wallpaper_engine.rs:242-276 | The independently built border path is identical to the fill's outline, and exactly one stroke of it is appended. |
| Compositor.DrawCircle | src-tauri/src/wallpaper_engine.rs:278-288 | Exactly one circle fill with the given centre, radius and colour is appended. |
| Compositor.DrawCard | src-tauri/src/wallpaper_engine.rs:146-190 | One card appends its panel fill, then its border stroke on the same outline, then (only if pinned) its pin. |
| Compositor.PlaceCard | src-tauri/src/wallpaper_engine.rs:134-143 | One step of the running y yields the card's closed-form y and advances the running y past the card and its 12px gap. |
| Compositor.DrawNextCard | src-tauri/src/wallpaper_engine.rs:131-190 | One turn of the loop draws card i in its layout box and advances the running y to its value before card i + 1. |
| Compositor.RenderCards | src-tauri/src/wallpaper_engine.rs:110-192 | The loop with its running y appends exactly the draw calls of the first min(4, n) cards, each at its closed-form layout box, in input order. |
| Compositor.RenderWallpaper | src-tauri/src/wallpaper_engine.rs:71-107 | The outcome is one of the following. A decode error gives "Failed to load background: …". A zero dimension gives "Failed to create pixmap". It panics exactly when some pixel is not premultiplied-valid. A decodable, non-empty image whose pixels are all premultiplied-valid always renders, and a failure message arises only from the first two cases. Otherwise the result is a fresh pixmap of the image's size holding its pixels verbatim, with the full-canvas (0,0,0,50) overlay drawn first, then the card draws, or nothing more when there are no cards. |
| Compositor.DrawnCardsInOrder | src-tauri/src/wallpaper_engine.rs:130-190 | Exactly min(4, n) panels are filled, card i's at card i's box. The strokes use exactly the filled outlines, and there is one pin circle per pinned card among those drawn. |
| Compositor.NoCardsNoDraws | src-tauri/src/wallpaper_engine.rs:101-103 | An empty card list issues no card draw calls. |
| Compositor.LaterCardsIgnored | src-tauri/src/wallpaper_engine.rs:130 | Appending cards after the fourth changes nothing that is drawn. |
| Compositor.PinPlacement | src-tauri/src/wallpaper_engine.rs:177-190 | A card issues a third call exactly when it is pinned. That call is a radius-6 circle centred at (x + card_width − 12, y + 12), in its type's colour. It always fits vertically, and it fits horizontally exactly when the card is at least 18px wide. |
| Compositor.CardOutlineInsideBox | src-tauri/src/wallpaper_engine.rs:147-159 | With cards at least 32px wide, every point of a card's outline lies in that card's box. |
| Compositor.CardOutlinesSeparated | src-tauri/src/wallpaper_engine.rs:133-159 | Two drawn cards' outlines are at least 12px apart vertically, with the later card further from the anchor, whatever the card width. |
| Compositor.SingleCardExample | src-tauri/src/wallpaper_engine.rs:117-144 | An 800×600 canvas with one bottom-right card of width 280, titled "Note", with 29 ASCII characters of content, places that card at (488, 492), 76px tall. |

## Left out

- Rasterisation: anti-aliasing, fill rules, stroking and blending happen inside tiny-skia. The model logs each draw call on the pixmap instead of changing pixels.
- Pixmaps.Pixmap.FillPath: only the call is recorded; the pixels it would cover are not modelled (the same holds for FillRect, StrokePath and FillCircle).
- Compositor.DrawCircle: it records the circle's centre, radius and colour, not the four conic segments that `push_circle` produces.
- Compositor.RenderWallpaper: stops before `encode_png`; a `Rendered` outcome carries the pixmap, not PNG bytes, and the encoder's failure path is not modelled.
- Compositor.RenderWallpaper: image decoding (`image::open`) is an input: the background arrives as the decoder's result, an image or an error message.
- Compositor.SaturatingCastU8: the opacity product is taken over exact reals, not `f32`, so one-ulp rounding at an integer boundary and NaN opacities are not modelled.
- CardLayout.CardY: positions and heights use unbounded integers instead of `f32`. The one fractional quantity is `content.len() as f32 / 30.0`; below 2^24 bytes its rounding error is under 1/30, and a non-integer n/30 lies at least 1/30 from the nearest integer, so the ceiling, and with it every height, is exact. Every position is exact as well, as long as `card_width`, the canvas width and height, and the running y all stay below 2^24 in magnitude. Not modelled: the `as f32` rounding of a card width or canvas size of 2^24 or more (lines 111 and 119-120), rounding of a running y beyond ±2^24 (after cards of millions of bytes), and content of 2^24 bytes or more.
- Pixmaps.CopyBackground: the slot `y * width + x` is computed without the `u32` overflow the source would hit for images of 2^32 pixels or more.
- Pixmaps.NewPixmap: only the zero-dimension refusal of `Pixmap::new` is modelled, not its refusal of sizes whose byte count overflows.
- Paths.PathBuilder: the builder's normalisations (an implicit move before a stray line, merging repeated moves) are not modelled, since these paths never trigger them. Neither is `finish` refusing non-finite bounds.
- ImageFiles.IsValidImage: only `/` separators are modelled, not Windows separators or prefixes. `to_string_lossy` on non-UTF-8 names is not modelled, and lowercasing covers ASCII letters only.
- `blur_background` is carried in the request but never read by `wallpaper_engine.rs`, so it has no effect in the model either.
- `src-tauri/src/main.rs` (the application shell, commands and wallpaper setting) is not part of this model.

=== FILE: base.dfy ===
/** Small value types shared by the rest of the model. */
module Base {

  /** An 8-bit unsigned channel value (Rust `u8`). */
  type byte = x: int | 0 <= x < 256

  datatype Option<T> = None | Some(value: T)

  datatype Result<T> = Ok(value: T) | Err(message: string)

  function Min(a: int, b: int): int { if a <= b then a else b }
}

=== FILE: compositor.dfy ===
/**
 * The card compositor: which draw calls render_cards issues for each card,
 * with which paths and colours, and the whole render_wallpaper pipeline.
 */
module Compositor {
  import opened Base
  import opened Paths
  import opened Pixmaps
  import opened CardLayout

  /**
   * Rust's `f32 as u8`: truncate toward zero and saturate to 0..255
   * (the product is taken over exact reals here).
   */
  function SaturatingCastU8(v: real): (b: byte)
    ensures v < 0.0 ==> b == 0
    ensures v >= 255.0 ==> b == 255
    ensures 0.0 <= v < 256.0 ==> b as real <= v < b as real + 1.0
  {
    if v <= 0.0 then 0 else if v >= 255.0 then 255 else v.Floor
  }

  /**
   * The translucent panel colour: white on a dark desktop, black on a light
   * one, at most 40/255 (dark) or 30/255 (light) opaque for an opacity in
   * [0, 1], and fully transparent for a non-positive opacity.
   */
  function FillColor(isDarkMode: bool, cardOpacity: real): (c: Rgba)
    ensures isDarkMode ==> c.r == c.g == c.b == 255
    ensures !isDarkMode ==> c.r == c.g == c.b == 0
    ensures 0.0 <= cardOpacity <= 1.0 ==> c.a <= if isDarkMode then 40 else 30
    ensures cardOpacity <= 0.0 ==> c.a == 0
  {
    if isDarkMode then Rgba(255, 255, 255, SaturatingCastU8(cardOpacity * 40.0))
    else Rgba(0, 0, 0, SaturatingCastU8(cardOpacity * 30.0))
  }

  /** The border: a translucent grey, white on a dark desktop and black on a light one. */
  function BorderColor(isDarkMode: bool): (c: Rgba)
    ensures c.r == c.g == c.b && c.a < 255
    ensures isDarkMode <==> c.r == 255
    ensures !isDarkMode <==> c.r == 0
  {
    if isDarkMode then Rgba(255, 255, 255, 50) else Rgba(0, 0, 0, 20)
  }

  /** Opaque amber (red-dominant) for memos, opaque blue (blue-dominant) for tasks. */
  function PinColor(cardType: CardType): (c: Rgba)
    ensures c.a == 255
    ensures cardType == Memo <==> c.r > c.b
  {
    match cardType
    case Memo => Rgba(251, 191, 36, 255)
    case Task => Rgba(96, 165, 250, 255)
  }

  const PinOffset := 12
  const PinRadius := 6
  const BorderWidth := 1

  /** The rounded outline of a card box, with the 16px corner radius. */
  function BoxOutline(box: Box): seq<PathOp>
  {
    RoundedRectPath(box.x, box.y, box.w, box.h, CornerRadius)
  }

  /** The draw calls for one card in its box: panel, border, then the pin if pinned. */
  function CardDrawCalls(options: RenderOptions, card: WallpaperCard, box: Box): seq<DrawCall>
  {
    var outline := BoxOutline(box);
    [ DrawCall.FillPath(outline, FillColor(options.isDarkMode, options.cardOpacity)),
      DrawCall.StrokePath(outline, BorderColor(options.isDarkMode), BorderWidth) ]
    + if card.isPinned then
        [DrawCall.FillCircle(box.x + box.w - PinOffset, box.y + PinOffset, PinRadius, PinColor(card.cardType))]
      else []
  }

  lemma CardDrawCallsParts(options: RenderOptions, card: WallpaperCard, box: Box)
    ensures var outline := BoxOutline(box);
      CardDrawCalls(options, card, box) ==
        [DrawCall.FillPath(outline, FillColor(options.isDarkMode, options.cardOpacity)),
         DrawCall.StrokePath(outline, BorderColor(options.isDarkMode), BorderWidth)]
        + if card.isPinned then
            [DrawCall.FillCircle(box.x + box.w - PinOffset, box.y + PinOffset, PinRadius, PinColor(card.cardType))]
          else []
  {
  }

  /**
   * One card issues a panel fill and a border stroke of one shared outline
   * (the border 1px wide), then an opaque pin only if it is pinned.
   */
  lemma CardDrawCallsShape(options: RenderOptions, card: WallpaperCard, box: Box)
    ensures var ds := CardDrawCalls(options, card, box);
      && |ds| == (if card.isPinned then 3 else 2)
      && ds[0].FillPath? && ds[1].StrokePath? && ds[0].path == ds[1].path == BoxOutline(box)
      && ds[1].strokeWidth == 1
      && (card.isPinned ==> ds[2].FillCircle? && ds[2].color.a == 255)
  {
  }

  /** The draw calls for the first k cards, card i in box i, in input order. */
  function DrawsUpTo(options: RenderOptions, boxes: seq<Box>, k: nat): (ds: seq<DrawCall>)
    requires k <= |boxes| && k <= |options.cards|
    ensures 2 * k <= |ds| <= 3 * k
  {
    if k == 0 then
      []
    else
      CardDrawCallsShape(options, options.cards[k - 1], boxes[k - 1]);
      DrawsUpTo(options, boxes, k - 1) + CardDrawCalls(options, options.cards[k - 1], boxes[k - 1])
  }

  /** Everything render_cards draws: two or three calls per drawn card, and nothing for no cards. */
  function CardsDrawCalls(options: RenderOptions, width: nat, height: nat): (ds: seq<DrawCall>)
    ensures 2 * DrawnCount(options) <= |ds| <= 3 * DrawnCount(options)
    ensures ds == [] <==> options.cards == []
  {
    DrawsUpTo(options, Layout(options, width, height), DrawnCount(options))
  }

  /** Builds the rounded-rectangle outline verb by verb and fills it. */
  method DrawRoundedRect(pixmap: Pixmap, x: int, y: int, width: int, height: int, radius: int, color: Rgba)
    modifies pixmap
    ensures pixmap.draws == old(pixmap.draws) + [DrawCall.FillPath(RoundedRectPath(x, y, width, height, radius), color)]
  {
    var pb := new PathBuilder();
    pb.MoveTo(x + radius, y);
    pb.LineTo(x + width - radius, y);
    pb.QuadTo(x + width, y, x + width, y + radius);
    pb.LineTo(x + width, y + height - radius);
    pb.QuadTo(x + width, y + height, x + width - radius, y + height);
    pb.LineTo(x + radius, y + height);
    pb.QuadTo(x, y + height, x, y + height - radius);
    pb.LineTo(x, y + radius);
    pb.QuadTo(x, y, x + radius, y);
    pb.Close();
    assert pb.verbs == RoundedRectPath(x, y, width, height, radius);
    var path := pb.Finish();
    if path.Some? {
      pixmap.FillPath(path.value, color);
    }
  }

  /** Builds the same outline independently and strokes it. */
  method DrawRoundedRectStroke(pixmap: Pixmap, x: int, y: int, width: int, height: int, radius: int,
                               color: Rgba, strokeWidth: int)
    modifies pixmap
    ensures pixmap.draws == old(pixmap.draws)
      + [DrawCall.StrokePath(RoundedRectPath(x, y, width, height, radius), color, strokeWidth)]
  {
    var pb := new PathBuilder();
    pb.MoveTo(x + radius, y);
    pb.LineTo(x + width - radius, y);
    pb.QuadTo(x + width, y, x + width, y + radius);
    pb.LineTo(x + width, y + height - radius);
    pb.QuadTo(x + width, y + height, x + width - radius, y + height);
    pb.LineTo(x + radius, y + height);
    pb.QuadTo(x, y + height, x, y + height - radius);
    pb.LineTo(x, y + radius);
    pb.QuadTo(x, y, x + radius, y);
    pb.Close();
    assert pb.verbs == RoundedRectPath(x, y, width, height, radius);
    var path := pb.Finish();
    if path.Some? {
      pixmap.StrokePath(path.value, color, strokeWidth);
    }
  }

  method DrawCircle(pixmap: Pixmap, cx: int, cy: int, radius: int, color: Rgba)
    modifies pixmap
    ensures pixmap.draws == old(pixmap.draws) + [DrawCall.FillCircle(cx, cy, radius, color)]
  {
    pixmap.FillCircle(cx, cy, radius, color);
  }

  /** Draws one card at (x, y): the panel fill, its 1px border and, if pinned, the pin. */
  method DrawCard(pixmap: Pixmap, options: RenderOptions, card: WallpaperCard, x: int, y: int, cardHeight: int)
    modifies pixmap
    ensures pixmap.draws == old(pixmap.draws) + CardDrawCalls(options, card, Box(x, y, options.cardWidth, cardHeight))
  {
    var cardWidth := options.cardWidth;
    ghost var outline := BoxOutline(Box(x, y, cardWidth, cardHeight));
    ghost var panel := [DrawCall.FillPath(outline, FillColor(options.isDarkMode, options.cardOpacity)),
                        DrawCall.StrokePath(outline, BorderColor(options.isDarkMode), BorderWidth)];
    ghost var pin := [DrawCall.FillCircle(x + cardWidth - PinOffset, y + PinOffset, PinRadius, PinColor(card.cardType))];
    CardDrawCallsParts(options, card, Box(x, y, cardWidth, cardHeight));
    DrawRoundedRect(pixmap, x, y, cardWidth, cardHeight, CornerRadius,
                    FillColor(options.isDarkMode, options.cardOpacity));
    DrawRoundedRectStroke(pixmap, x, y, cardWidth, cardHeight, CornerRadius,
                          BorderColor(options.isDarkMode), BorderWidth);
    assert pixmap.draws == old(pixmap.draws) + panel;
    if card.isPinned {
      DrawCircle(pixmap, x + cardWidth - PinOffset, y + PinOffset, PinRadius, PinColor(card.cardType));
      assert pixmap.draws == old(pixmap.draws) + panel + pin;
    }
  }

  /**
   * The running y before card i: the bottom margin line minus the heights of
   * cards 0..i-1 and one 12px gap per card (bottom anchors), or the top
   * margin plus the same (top anchors).
   */
  function RunningY(options: RenderOptions, height: nat, i: nat): int
    requires i <= DrawnCount(options)
  {
    if StacksUpward(options.position) then
      height - EdgeMargin - HeightsSum(options.cards[..i]) - CardMargin * i
    else
      EdgeMargin + HeightsSum(options.cards[..i]) + CardMargin * i
  }

  /**
   * One step of the running y: a bottom anchor first moves it up past the
   * card and its gap and places the card one gap below the new y; a top
   * anchor places the card at the current y and then moves it down past the
   * card and its gap. Either way the card lands at its closed-form y.
   */
  method PlaceCard(options: RenderOptions, height: nat, i: nat, currentY: int) returns (cardY: int, nextY: int)
    requires i < DrawnCount(options)
    requires currentY == RunningY(options, height, i)
    ensures cardY == CardY(options, height, i)
    ensures nextY == RunningY(options, height, i + 1)
  {
    var cardHeight := CardHeight(options.cards[i]);
    HeightsSumStep(options.cards, i);
    if StacksUpward(options.position) {
      nextY := currentY - (cardHeight + CardMargin);
      cardY := nextY + CardMargin;
    } else {
      cardY := currentY;
      nextY := currentY + cardHeight + CardMargin;
    }
  }

  /**
   * One turn of the card loop: places card i at the running y, draws it in
   * its box and moves the running y past it and the 12px gap.
   */
  method DrawNextCard(pixmap: Pixmap, options: RenderOptions, width: nat, height: nat, i: nat, startX: int, currentY: int)
    returns (nextY: int)
    requires i < DrawnCount(options)
    requires startX == StartX(options, width) && currentY == RunningY(options, height, i)
    modifies pixmap
    ensures pixmap.draws == old(pixmap.draws) + CardDrawCalls(options, options.cards[i], CardBox(options, width, height, i))
    ensures nextY == RunningY(options, height, i + 1)
  {
    var card := options.cards[i];
    var cardY;
    cardY, nextY := PlaceCard(options, height, i, currentY);
    DrawCard(pixmap, options, card, startX, cardY, CardHeight(card));
  }

  /** Drawing one more card, after whatever was drawn before, appends exactly that card's calls. */
  lemma DrawsUpToStep(options: RenderOptions, width: nat, height: nat, i: nat, before: seq<DrawCall>)
    requires i < DrawnCount(options)
    ensures before + DrawsUpTo(options, Layout(options, width, height), i + 1)
         == (before + DrawsUpTo(options, Layout(options, width, height), i))
            + CardDrawCalls(options, options.cards[i], CardBox(options, width, height, i))
  { }

  /**
   * Draws the first min(4, n) cards, keeping a running y that moves up past
   * each card (bottom anchors) or down past it (top anchors), 12px apart.
   */
  method RenderCards(pixmap: Pixmap, options: RenderOptions, width: nat, height: nat)
    modifies pixmap
    ensures pixmap.draws == old(pixmap.draws) + CardsDrawCalls(options, width, height)
  {
    var startX := StartX(options, width);
    var currentY := StartY(options, height);
    assert options.cards[..0] == [];
    for i := 0 to DrawnCount(options)
      invariant pixmap.draws == old(pixmap.draws) + DrawsUpTo(options, Layout(options, width, height), i)
      invariant currentY == RunningY(options, height, i)
    {
      currentY := DrawNextCard(pixmap, options, width, height, i, startX, currentY);
      DrawsUpToStep(options, width, height, i, old(pixmap.draws));
    }
  }

  /** How the render ends: an error message, a panic in the pixel copy, or the finished pixmap. */
  datatype Outcome = Failure(message: string) | Panic | Rendered(pixmap: Pixmap)

  const OverlayColor := Rgba(0, 0, 0, 50)

  /**
   * The whole pipeline up to encoding: the decoded background (or the
   * decoder's error) goes into a fresh pixmap, every pixel copied verbatim,
   * a 50/255 black overlay over the whole canvas, then the cards if any.
   */
  method RenderWallpaper(background: Result<RgbaImage>, options: RenderOptions) returns (out: Outcome)
    requires background.Ok? ==> background.value.Valid()
    ensures background.Err? ==> out == Failure("Failed to load background: " + background.message)
    ensures background.Ok? && (background.value.width == 0 || background.value.height == 0) ==>
      out == Failure("Failed to create pixmap")
    ensures out.Failure? ==> background.Err? || background.value.width == 0 || background.value.height == 0
    ensures (&& background.Ok? && background.value.width > 0 && background.value.height > 0
             && PremultipliedPrefix(background.value.pixels) == |background.value.pixels|)
      ==> out.Rendered?
    ensures out.Panic? <==>
      && background.Ok? && |background.value.pixels| > 0
      && PremultipliedPrefix(background.value.pixels) < |background.value.pixels|
    ensures out.Rendered? ==>
      && background.Ok?
      && fresh(out.pixmap) && out.pixmap.Valid()
      && out.pixmap.width == background.value.width && out.pixmap.height == background.value.height
      && out.pixmap.pixels[..] == background.value.pixels
      && out.pixmap.draws == [DrawCall.FillRect(0, 0, background.value.width, background.value.height, OverlayColor)]
           + CardsDrawCalls(options, background.value.width, background.value.height)
      && (options.cards == [] ==>
            out.pixmap.draws == [DrawCall.FillRect(0, 0, background.value.width, background.value.height, OverlayColor)])
  {
    if background.Err? {
      return Failure("Failed to load background: " + background.message);
    }
    var image := background.value;
    var width, height := image.width, image.height;
    var created := NewPixmap(width, height);
    if created.None? {
      return Failure("Failed to create pixmap");
    }
    var pixmap := created.value;
    var ok := CopyBackground(pixmap, image);
    if !ok {
      return Panic;
    }
    pixmap.FillRect(0, 0, width, height, OverlayColor);
    if options.cards != [] {
      RenderCards(pixmap, options, width, height);
    }
    return Rendered(pixmap);
  }

  /** The colours actually used for the panel stay within the intended translucency. */
  lemma FillAlphaRange(isDarkMode: bool, cardOpacity: real)
    requires 0.0 <= cardOpacity <= 1.0
    ensures var c := FillColor(isDarkMode, cardOpacity);
      && (isDarkMode ==> c.r == c.g == c.b == 255 && c.a == (cardOpacity * 40.0).Floor && c.a <= 40)
      && (!isDarkMode ==> c.r == c.g == c.b == 0 && c.a == (cardOpacity * 30.0).Floor && c.a <= 30)
  {
    var c := FillColor(isDarkMode, cardOpacity);
    if isDarkMode {
      assert c.a as real <= cardOpacity * 40.0 < c.a as real + 1.0;
    } else {
      assert c.a as real <= cardOpacity * 30.0 < c.a as real + 1.0;
    }
  }

  /**
   * The pin colour is a total two-entry mapping: amber RGBA(251,191,36,255)
   * for memos, blue RGBA(96,165,250,255) for tasks, both opaque and distinct;
   * the border is RGBA(255,255,255,50) on dark and RGBA(0,0,0,20) on light.
   */
  lemma ColorTable()
    ensures PinColor(Memo) == Rgba(251, 191, 36, 255)
    ensures PinColor(Task) == Rgba(96, 165, 250, 255)
    ensures forall t: CardType :: PinColor(t).a == 255
    ensures PinColor(Memo) != PinColor(Task)
    ensures BorderColor(true) == Rgba(255, 255, 255, 50)
    ensures BorderColor(false) == Rgba(0, 0, 0, 20)
  {
  }

  /** The outlines of the filled panels, in draw order. */
  function FilledPaths(ds: seq<DrawCall>): seq<seq<PathOp>>
  {
    if ds == [] then []
    else FilledPaths(ds[..|ds| - 1]) + if ds[|ds| - 1].FillPath? then [ds[|ds| - 1].path] else []
  }

  /** The outlines of the stroked borders, in draw order. */
  function StrokedPaths(ds: seq<DrawCall>): seq<seq<PathOp>>
  {
    if ds == [] then []
    else StrokedPaths(ds[..|ds| - 1]) + if ds[|ds| - 1].StrokePath? then [ds[|ds| - 1].path] else []
  }

  /** The number of pin circles drawn. */
  function CircleCount(ds: seq<DrawCall>): nat
  {
    if ds == [] then 0
    else CircleCount(ds[..|ds| - 1]) + if ds[|ds| - 1].FillCircle? then 1 else 0
  }

  /** The number of pinned cards in a list. */
  function PinnedCount(cards: seq<WallpaperCard>): nat
  {
    if cards == [] then 0
    else PinnedCount(cards[..|cards| - 1]) + if cards[|cards| - 1].isPinned then 1 else 0
  }

  lemma PinnedCountStep(cards: seq<WallpaperCard>, k: nat)
    requires 0 < k <= |cards|
    ensures PinnedCount(cards[..k]) == PinnedCount(cards[..k - 1]) + if cards[k - 1].isPinned then 1 else 0
  {
    assert cards[..k][..k - 1] == cards[..k - 1];
  }

  lemma {:induction false} CountsAppend(a: seq<DrawCall>, b: seq<DrawCall>)
    ensures FilledPaths(a + b) == FilledPaths(a) + FilledPaths(b)
    ensures StrokedPaths(a + b) == StrokedPaths(a) + StrokedPaths(b)
    ensures CircleCount(a + b) == CircleCount(a) + CircleCount(b)
    decreases |b|
  {
    if b != [] {
      var b' := b[..|b| - 1];
      assert (a + b)[..|a + b| - 1] == a + b';
      CountsAppend(a, b');
    } else {
      assert a + b == a;
    }
  }

  /** The outline of drawn card i, at its layout box with the 16px corner radius. */
  function CardOutline(options: RenderOptions, width: nat, height: nat, i: nat): seq<PathOp>
    requires i < DrawnCount(options)
  {
    BoxOutline(CardBox(options, width, height, i))
  }

  /** One card fills and strokes its outline once each, and draws one circle if pinned. */
  lemma CardDrawCallsCounts(options: RenderOptions, card: WallpaperCard, box: Box)
    ensures var ds := CardDrawCalls(options, card, box);
      var outline := BoxOutline(box);
      && FilledPaths(ds) == [outline]
      && StrokedPaths(ds) == [outline]
      && CircleCount(ds) == if card.isPinned then 1 else 0
  {
    var ds := CardDrawCalls(options, card, box);
    var outline := BoxOutline(box);
    CardDrawCallsParts(options, card, box);
    assert ds[..1][..0] == [];
    assert FilledPaths(ds[..1]) == [outline];
    assert StrokedPaths(ds[..1]) == [];
    assert CircleCount(ds[..1]) == 0;
    assert ds[..2][..1] == ds[..1];
    assert FilledPaths(ds[..2]) == [outline];
    assert StrokedPaths(ds[..2]) == [outline];
    assert CircleCount(ds[..2]) == 0;
    if card.isPinned {
      assert ds[..|ds| - 1] == ds[..2];
    } else {
      assert ds == ds[..2];
    }
  }

  /** Appending one card's draw calls fills and strokes that card's outline once each. */
  lemma OutlineStep(prev: seq<DrawCall>, options: RenderOptions, card: WallpaperCard, box: Box)
    ensures FilledPaths(prev + CardDrawCalls(options, card, box)) == FilledPaths(prev) + [BoxOutline(box)]
    ensures StrokedPaths(prev + CardDrawCalls(options, card, box)) == StrokedPaths(prev) + [BoxOutline(box)]
  {
    CountsAppend(prev, CardDrawCalls(options, card, box));
    CardDrawCallsCounts(options, card, box);
  }

  lemma {:induction false} DrawsUpToFilled(options: RenderOptions, boxes: seq<Box>, k: nat)
    requires k <= |boxes| && k <= |options.cards|
    ensures var ds := DrawsUpTo(options, boxes, k);
      && |FilledPaths(ds)| == k
      && (forall i | 0 <= i < k :: FilledPaths(ds)[i] == BoxOutline(boxes[i]))
      && StrokedPaths(ds) == FilledPaths(ds)
  {
    if k > 0 {
      DrawsUpToFilled(options, boxes, k - 1);
      var prev := DrawsUpTo(options, boxes, k - 1);
      OutlineStep(prev, options, options.cards[k - 1], boxes[k - 1]);
      var before := FilledPaths(prev);
      var fp := FilledPaths(DrawsUpTo(options, boxes, k));
      assert fp == before + [BoxOutline(boxes[k - 1])];
      assert |before| == k - 1 && |fp| == k;
      forall i | 0 <= i < k
        ensures fp[i] == BoxOutline(boxes[i])
      {
        if i < k - 1 {
          assert fp[i] == before[i];
        }
      }
    }
  }

  /** Appending one card's draw calls adds one circle exactly when the card is pinned. */
  lemma CircleCountStep(prev: seq<DrawCall>, options: RenderOptions, card: WallpaperCard, box: Box)
    ensures CircleCount(prev + CardDrawCalls(options, card, box)) == CircleCount(prev) + if card.isPinned then 1 else 0
  {
    CountsAppend(prev, CardDrawCalls(options, card, box));
    CardDrawCallsCounts(options, card, box);
  }

  lemma {:induction false} DrawsUpToCircles(options: RenderOptions, boxes: seq<Box>, k: nat)
    requires k <= |boxes| && k <= |options.cards|
    ensures CircleCount(DrawsUpTo(options, boxes, k)) == PinnedCount(options.cards[..k])
  {
    if k > 0 {
      DrawsUpToCircles(options, boxes, k - 1);
      var card := options.cards[k - 1];
      CircleCountStep(DrawsUpTo(options, boxes, k - 1), options, card, boxes[k - 1]);
      PinnedCountStep(options.cards, k);
    }
  }

  /**
   * Only the first min(4, n) cards are drawn, in input order: exactly that
   * many panels are filled and stroked, card i's outline at card i's box,
   * fill and stroke sharing the same outline, and one pin circle per
   * pinned card among them.
   */
  lemma DrawnCardsInOrder(options: RenderOptions, width: nat, height: nat)
    ensures var ds := CardsDrawCalls(options, width, height);
      && |FilledPaths(ds)| == (if |options.cards| < 4 then |options.cards| else 4)
      && (forall i | 0 <= i < |FilledPaths(ds)| :: FilledPaths(ds)[i] == CardOutline(options, width, height, i))
      && StrokedPaths(ds) == FilledPaths(ds)
      && CircleCount(ds) == PinnedCount(options.cards[..DrawnCount(options)])
  {
    var boxes := Layout(options, width, height);
    DrawsUpToFilled(options, boxes, DrawnCount(options));
    DrawsUpToCircles(options, boxes, DrawnCount(options));
  }

  /** An empty card list issues no card draw calls at all. */
  lemma NoCardsNoDraws(options: RenderOptions, width: nat, height: nat)
    requires options.cards == []
    ensures CardsDrawCalls(options, width, height) == []
  {
  }

  /** Cards after the fourth are ignored entirely: appending more changes nothing drawn. */
  lemma {:induction false} LaterCardsIgnored(options: RenderOptions, extra: seq<WallpaperCard>, width: nat, height: nat)
    requires |options.cards| >= MaxCards
    ensures CardsDrawCalls(options.(cards := options.cards + extra), width, height) == CardsDrawCalls(options, width, height)
  {
    var longer := options.(cards := options.cards + extra);
    LayoutIgnoresLaterCards(options, extra, width, height);
    DrawsUpToSame(options, longer, Layout(options, width, height), MaxCards);
  }

  /** A card's draw calls depend on the options only through the theme and the opacity. */
  lemma CardDrawCallsStyle(a: RenderOptions, b: RenderOptions, card: WallpaperCard, box: Box)
    requires a.isDarkMode == b.isDarkMode && a.cardOpacity == b.cardOpacity
    ensures CardDrawCalls(a, card, box) == CardDrawCalls(b, card, box)
  {
  }

  lemma {:induction false} DrawsUpToSame(options: RenderOptions, longer: RenderOptions, boxes: seq<Box>, k: nat)
    requires k <= |boxes| && k <= |options.cards| && k <= |longer.cards|
    requires longer.isDarkMode == options.isDarkMode && longer.cardOpacity == options.cardOpacity
    requires forall i | 0 <= i < k :: longer.cards[i] == options.cards[i]
    ensures DrawsUpTo(longer, boxes, k) == DrawsUpTo(options, boxes, k)
  {
    if k > 0 {
      DrawsUpToSame(options, longer, boxes, k - 1);
      CardDrawCallsStyle(longer, options, options.cards[k - 1], boxes[k - 1]);
    }
  }

  /**
   * The pin circle (radius 6, centred 12px in from the card's top-right
   * corner) is drawn exactly for pinned cards, in the colour of the card's
   * type; it lies inside the card box exactly when the card is at least 18px
   * wide (vertically it always fits, since every card is at least 52px tall).
   */
  lemma PinPlacement(options: RenderOptions, width: nat, height: nat, i: nat)
    requires i < DrawnCount(options)
    ensures var b := CardBox(options, width, height, i);
      var ds := CardDrawCalls(options, options.cards[i], b);
      && (|ds| == 3 <==> options.cards[i].isPinned)
      && (options.cards[i].isPinned ==>
            && ds[2].FillCircle?
            && ds[2].color == PinColor(options.cards[i].cardType)
            && ds[2].cx == b.x + b.w - 12 && ds[2].cy == b.y + 12 && ds[2].radius == 6
            && b.y <= ds[2].cy - ds[2].radius && ds[2].cy + ds[2].radius <= b.y + b.h
            && (b.x <= ds[2].cx - ds[2].radius && ds[2].cx + ds[2].radius <= b.x + b.w <==> options.cardWidth >= 18))
  {
    CardDrawCallsParts(options, options.cards[i], CardBox(options, width, height, i));
  }

  /**
   * With cards at least 32px wide (twice the corner radius), every end and
   * control point of a card's outline lies inside that card's box.
   */
  lemma CardOutlineInsideBox(options: RenderOptions, width: nat, height: nat, i: nat)
    requires i < DrawnCount(options) && options.cardWidth >= 2 * CornerRadius
    ensures var b := CardBox(options, width, height, i);
      var p := CardOutline(options, width, height, i);
      forall k, j | 0 <= k < |p| && 0 <= j < |OpPoints(p[k])| :: InBox(OpPoints(p[k])[j], b.x, b.y, b.w, b.h)
  {
    var b := CardBox(options, width, height, i);
    RoundedRectPathContained(b.x, b.y, b.w, b.h, CornerRadius);
  }

  /**
   * The outlines of two drawn cards never meet: for i < j every point of
   * card j's outline is at least 12px above (bottom anchors) or below (top
   * anchors) every point of card i's outline, whatever the card width.
   */
  lemma CardOutlinesSeparated(options: RenderOptions, width: nat, height: nat, i: nat, j: nat)
    requires i < j < DrawnCount(options)
    ensures var pi := CardOutline(options, width, height, i);
      var pj := CardOutline(options, width, height, j);
      forall a, s, c, t | 0 <= a < |pi| && 0 <= s < |OpPoints(pi[a])| && 0 <= c < |pj| && 0 <= t < |OpPoints(pj[c])| ::
        && (StacksUpward(options.position) ==> OpPoints(pj[c])[t].y + 12 <= OpPoints(pi[a])[s].y)
        && (!StacksUpward(options.position) ==> OpPoints(pi[a])[s].y + 12 <= OpPoints(pj[c])[t].y)
  {
    var bi := CardBox(options, width, height, i);
    var bj := CardBox(options, width, height, j);
    RoundedRectPathWithinRows(bi.x, bi.y, bi.w, bi.h, CornerRadius);
    RoundedRectPathWithinRows(bj.x, bj.y, bj.w, bj.h, CornerRadius);
    LayoutDisjoint(options, width, height, i, j);
  }

  /**
   * On an 800x600 canvas with the default options (bottom-right, width
   * 280), one card titled "Note" with 29 ASCII bytes of content lands at (488, 492) and is
   * 24 + 20 + 32 = 76px tall.
   */
  lemma SingleCardExample()
    ensures var card := WallpaperCard("Note", "12345678901234567890123456789", Memo, false);
      var options := DefaultOptions.(cards := [card]);
      Layout(options, 800, 600) == [Box(488, 492, 280, 76)]
  {
    var card := WallpaperCard("Note", "12345678901234567890123456789", Memo, false);
    var options := DefaultOptions.(cards := [card]);
    assert forall i | 0 <= i < |card.content| :: card.content[i] as int < 0x80;
    Utf8LengthBounds(card.content);
    HeightsSumStep(options.cards, 0);
    assert CardHeight(card) == 76;
    assert Layout(options, 800, 600)[0] == Box(488, 492, 280, 76);
  }
}

=== FILE: image_files.dfy ===
/**
 * Recognising background image files by extension, with the rules of
 * Rust's `Path::file_name` and `Path::extension` on '/'-separated paths.
 */
module ImageFiles {
  import opened Base

  /** The index of the last occurrence of c in s, or -1 if there is none. */
  function LastIndexOf(s: string, c: char): (k: int)
    ensures -1 <= k < |s|
    ensures k >= 0 ==> s[k] == c
    ensures forall j | k < j < |s| :: s[j] != c
  {
    if s == [] then -1
    else if s[|s| - 1] == c then |s| - 1
    else LastIndexOf(s[..|s| - 1], c)
  }

  /**
   * The last normal component of a path: trailing separators and "."
   * components are skipped; a path ending in ".." or with no components
   * has none.
   */
  function FileName(path: string): (name: Option<string>)
    ensures name.Some? ==> && name.value != "" && name.value != "." && name.value != ".."
                           && '/' !in name.value && |name.value| <= |path|
    decreases |path|
  {
    var k := LastIndexOf(path, '/');
    var last := path[k + 1..];
    if last == "" || last == "." then
      if k < 0 then None else FileName(path[..k])
    else if last == ".." then None
    else Some(last)
  }

  /**
   * The text after the last '.' of a file name. A name without a '.', a
   * name whose only '.' is its first character, and ".." have none.
   */
  function Extension(name: string): (ext: Option<string>)
    ensures ext.None? <==> name == ".." || forall j | 0 < j < |name| :: name[j] != '.'
    ensures ext.Some? ==>
      && '.' !in ext.value && |ext.value| + 2 <= |name|
      && name[|name| - |ext.value| - 1] == '.' && name[|name| - |ext.value|..] == ext.value
  {
    if name == ".." then None
    else
      var k := LastIndexOf(name, '.');
      if k <= 0 then None else Some(name[k + 1..])
  }

  function AsciiLower(c: char): char
  {
    if 'A' <= c <= 'Z' then (c as int + 32) as char else c
  }

  function AsciiUpper(c: char): char
  {
    if 'a' <= c <= 'z' then (c as int - 32) as char else c
  }

  function Lowercase(s: string): (t: string)
    ensures |t| == |s|
    ensures forall i {:trigger t[i]} | 0 <= i < |s| :: t[i] == AsciiLower(s[i])
  {
    seq(|s|, i requires 0 <= i < |s| => AsciiLower(s[i]))
  }

  function Uppercase(s: string): (t: string)
    ensures |t| == |s|
    ensures forall i {:trigger t[i]} | 0 <= i < |s| :: t[i] == AsciiUpper(s[i])
  {
    seq(|s|, i requires 0 <= i < |s| => AsciiUpper(s[i]))
  }

  const ImageExtensions: set<string> := {"png", "jpg", "jpeg", "bmp", "gif", "webp"}

  /**
   * A path names an image when its file name has an extension that,
   * lowercased, is a known image format; the shortest such path is like
   * "a.png".
   */
  predicate IsValidImage(path: string)
    ensures IsValidImage(path) ==> |path| >= 5
  {
    match FileName(path)
    case None => false
    case Some(name) =>
      match Extension(name)
      case None => false
      case Some(ext) => Lowercase(ext) in ImageExtensions
  }

  lemma {:induction false} LastIndexOfAppend(s: string, t: string, c: char)
    requires c !in t
    ensures LastIndexOf(s + t, c) == LastIndexOf(s, c)
    decreases |t|
  {
    if t == [] {
      assert s + t == s;
    } else {
      var t' := t[..|t| - 1];
      assert (s + t)[..|s + t| - 1] == s + t';
      assert (s + t)[|s + t| - 1] == t[|t| - 1];
      LastIndexOfAppend(s, t', c);
    }
  }

  lemma VerdictFromParts(path: string, name: string)
    requires FileName(path) == Some(name)
    ensures IsValidImage(path) <==> Extension(name).Some? && Lowercase(Extension(name).value) in ImageExtensions
  {
  }

  /** A separator followed by a normal last component selects that component. */
  lemma FileNameOfComponent(dir: string, name: string)
    requires '/' !in name && name != "" && name != "." && name != ".."
    ensures FileName(dir + "/" + name) == Some(name)
    ensures FileName(name) == Some(name)
  {
    LastIndexOfAppend(dir + "/", name, '/');
    assert LastIndexOf(dir + "/", '/') == |dir|;
    assert (dir + "/" + name)[|dir| + 1..] == name;
    assert LastIndexOf(name, '/') == -1;
  }

  /** A name stem.ext with a non-empty stem and a dot-free ext has extension ext. */
  lemma ExtensionOfStem(stem: string, ext: string)
    requires stem != "" && ext != "" && '.' !in ext
    ensures Extension(stem + "." + ext) == Some(ext)
  {
    LastIndexOfAppend(stem + ".", ext, '.');
    assert LastIndexOf(stem + ".", '.') == |stem|;
    assert (stem + "." + ext)[|stem| + 1..] == ext;
  }

  /** The file name of dir/stem.ext, and of stem.ext alone, is stem.ext. */
  lemma FileNameOfStem(dir: string, stem: string, ext: string)
    requires '/' !in stem && '/' !in ext && '.' !in ext && stem != "" && ext != ""
    ensures FileName(dir + "/" + stem + "." + ext) == Some(stem + "." + ext)
    ensures FileName(stem + "." + ext) == Some(stem + "." + ext)
  {
    var name := stem + "." + ext;
    assert name != "." && name != ".." by { assert |name| >= 3; }
    assert '/' !in name;
    FileNameOfComponent(dir, name);
    assert dir + "/" + stem + "." + ext == dir + "/" + name;
  }

  /**
   * A file stem.ext (in any directory, or on its own) is a valid image exactly
   * when ext, lowercased, is png, jpg, jpeg, bmp, gif or webp.
   */
  lemma NamedFileIsImageIff(dir: string, stem: string, ext: string)
    requires '/' !in stem && '/' !in ext && '.' !in ext && stem != "" && ext != ""
    ensures IsValidImage(dir + "/" + stem + "." + ext) <==> Lowercase(ext) in ImageExtensions
    ensures IsValidImage(stem + "." + ext) <==> Lowercase(ext) in ImageExtensions
  {
    var name := stem + "." + ext;
    FileNameOfStem(dir, stem, ext);
    ExtensionOfStem(stem, ext);
    VerdictFromParts(dir + "/" + stem + "." + ext, name);
    VerdictFromParts(name, name);
  }

  /** A file name without any '.' is never a valid image. */
  lemma NoExtensionIsInvalid(dir: string, name: string)
    requires '/' !in name && '.' !in name && name != ""
    ensures !IsValidImage(dir + "/" + name)
    ensures !IsValidImage(name)
  {
    assert name != "." && name != ".." by { assert name[0] != '.'; }
    FileNameOfComponent(dir, name);
  }

  /**
   * A hidden file whose only '.' is its first character, such as ".png",
   * has no extension, so it is not a valid image.
   */
  lemma HiddenFileIsInvalid(dir: string, name: string)
    requires |name| >= 2 && name[0] == '.' && '.' !in name[1..] && '/' !in name
    ensures !IsValidImage(dir + "/" + name)
    ensures !IsValidImage(name)
  {
    HiddenFileName(dir, name);
    HiddenFileExtension(name);
    VerdictFromParts(dir + "/" + name, name);
    VerdictFromParts(name, name);
  }

  /** A hidden file's name, after a directory or alone, is its own file name. */
  lemma HiddenFileName(dir: string, name: string)
    requires |name| >= 2 && name[0] == '.' && '.' !in name[1..] && '/' !in name
    ensures FileName(dir + "/" + name) == Some(name) && FileName(name) == Some(name)
  {
    assert name != ".." by { assert name[1] == name[1..][0]; }
    assert name != "" && name != ".";
    FileNameOfComponent(dir, name);
  }

  /** A name whose only '.' is its first character has no extension. */
  lemma HiddenFileExtension(name: string)
    requires |name| >= 2 && name[0] == '.' && '.' !in name[1..]
    ensures Extension(name) == None
  {
    var head := name[..1];
    assert name == head + name[1..];
    LastIndexOfAppend(head, name[1..], '.');
    assert LastIndexOf(head, '.') == 0;
    assert LastIndexOf(name, '.') == 0;
  }

  /**
   * A path whose last component is ".." has no file name, so it is never a
   * valid image, whatever precedes it.
   */
  lemma ParentComponentIsInvalid(dir: string)
    ensures FileName(dir + "/..") == None && FileName("..") == None
    ensures !IsValidImage(dir + "/..") && !IsValidImage("..")
  {
    assert dir + "/.." == (dir + "/") + "..";
    LastIndexOfAppend(dir + "/", "..", '/');
    assert LastIndexOf(dir + "/", '/') == |dir|;
    assert (dir + "/..")[|dir| + 1..] == "..";
    FileNameUnfold(dir + "/..");
    FileNameUnfold("..");
  }

  /** A trailing separator leaves the file name as it was. */
  lemma FileNameTrailingSlash(path: string)
    ensures FileName(path + "/") == FileName(path)
  {
    assert LastIndexOf(path + "/", '/') == |path|;
    assert (path + "/")[..|path|] == path;
    FileNameUnfold(path + "/");
  }

  /** A trailing "." component leaves the file name as it was. */
  lemma FileNameTrailingDot(path: string)
    ensures FileName(path + "/.") == FileName(path)
  {
    LastIndexOfAppend(path + "/", ".", '/');
    assert LastIndexOf(path + "/", '/') == |path|;
    assert (path + "/.")[..|path|] == path;
    assert (path + "/.")[|path| + 1..] == ".";
    FileNameUnfold(path + "/.");
  }

  /** Trailing separators and "." components change neither the file name nor the verdict. */
  lemma TrailingComponentsIgnored(path: string)
    ensures FileName(path + "/") == FileName(path) && FileName(path + "/.") == FileName(path)
    ensures IsValidImage(path + "/") == IsValidImage(path)
    ensures IsValidImage(path + "/.") == IsValidImage(path)
  {
    FileNameTrailingSlash(path);
    FileNameTrailingDot(path);
  }


  lemma LastIndexOfUpper(s: string, c: char)
    requires c == '/' || c == '.'
    ensures LastIndexOf(Uppercase(s), c) == LastIndexOf(s, c)
    decreases |s|
  {
    if s != [] {
      assert Uppercase(s)[..|s| - 1] == Uppercase(s[..|s| - 1]);
      LastIndexOfUpper(s[..|s| - 1], c);
    }
  }

  /** Upper-casing keeps the empty, "." and ".." components recognisable. */
  lemma SpecialComponentsUpper(s: string)
    ensures Uppercase(s) == "" <==> s == ""
    ensures Uppercase(s) == "." <==> s == "."
    ensures Uppercase(s) == ".." <==> s == ".."
  {
    if |s| >= 1 {
      assert Uppercase(s)[0] == AsciiUpper(s[0]);
    }
    if |s| >= 2 {
      assert Uppercase(s)[1] == AsciiUpper(s[1]);
    }
  }

  lemma UppercaseSlices(s: string, i: nat)
    requires i <= |s|
    ensures Uppercase(s)[i..] == Uppercase(s[i..])
    ensures Uppercase(s)[..i] == Uppercase(s[..i])
  {
  }

  /** How FileName reads the text after the last separator. */
  lemma FileNameUnfold(path: string)
    ensures var k := LastIndexOf(path, '/');
      var last := path[k + 1..];
      FileName(path) ==
        if last == "" || last == "." then (if k < 0 then None else FileName(path[..k]))
        else if last == ".." then None
        else Some(last)
  {
  }

  lemma {:induction false} FileNameUpper(path: string)
    ensures FileName(Uppercase(path)) == match FileName(path)
      case None => None
      case Some(name) => Some(Uppercase(name))
    decreases |path|
  {
    var k := LastIndexOf(path, '/');
    var up := Uppercase(path);
    var last := path[k + 1..];
    assert LastIndexOf(up, '/') == k by { LastIndexOfUpper(path, '/'); }
    UppercaseSlices(path, k + 1);
    SpecialComponentsUpper(last);
    FileNameUnfold(path);
    FileNameUnfold(up);
    if (last == "" || last == ".") && k >= 0 {
      UppercaseSlices(path, k);
      FileNameUpper(path[..k]);
    }
  }

  lemma ExtensionUpper(name: string)
    ensures Extension(Uppercase(name)) == match Extension(name)
      case None => None
      case Some(ext) => Some(Uppercase(ext))
  {
    SpecialComponentsUpper(name);
    LastIndexOfUpper(name, '.');
    var k := LastIndexOf(name, '.');
    if k > 0 {
      UppercaseSlices(name, k + 1);
    }
  }

  lemma LowercaseOfUppercase(s: string)
    ensures Lowercase(Uppercase(s)) == Lowercase(s)
  {
    forall i | 0 <= i < |s|
      ensures Lowercase(Uppercase(s))[i] == Lowercase(s)[i]
    {
      var c := s[i];
      assert Uppercase(s)[i] == AsciiUpper(c);
    }
  }

  /**
   * Lowercasing leaves no ASCII capital behind, is idempotent, and forgets
   * any earlier upper-casing.
   */
  lemma LowercaseNormalises(s: string)
    ensures forall i | 0 <= i < |s| :: !('A' <= Lowercase(s)[i] <= 'Z')
    ensures Lowercase(Lowercase(s)) == Lowercase(s)
    ensures Lowercase(Uppercase(s)) == Lowercase(s)
  {
    LowercaseOfUppercase(s);
    forall i | 0 <= i < |s|
      ensures Lowercase(Lowercase(s))[i] == Lowercase(s)[i]
    {
      assert Lowercase(s)[i] == AsciiLower(s[i]);
    }
  }

  /**
   * The verdict ignores letter case throughout: upper-casing the whole path
   * (directory and file name alike) never changes the verdict.
   */
  lemma CaseInsensitive(path: string)
    ensures IsValidImage(Uppercase(path)) == IsValidImage(path)
  {
    FileNameUpper(path);
    if FileName(path).Some? {
      var name := FileName(path).value;
      ExtensionUpper(name);
      if Extension(name).Some? {
        var ext := Extension(name).value;
        LowercaseOfUppercase(ext);
      }
    }
  }
}

=== FILE: layout.dfy ===
/**
 * Card layout: how tall each card is, where the stack starts, and where
 * each of the (at most four) drawn cards lands on the canvas.
 */
module CardLayout {
  import opened Base

  datatype CardType = Memo | Task

  /** The screen corner the cards are stacked from. */
  datatype CardPosition = BottomRight | BottomLeft | TopRight | TopLeft

  datatype WallpaperCard = WallpaperCard(title: string, content: string, cardType: CardType, isPinned: bool)

  /** The render request; `cardOpacity` stands for an `f32`. */
  datatype RenderOptions = RenderOptions(
    cards: seq<WallpaperCard>,
    position: CardPosition,
    cardWidth: nat,
    cardOpacity: real,
    blurBackground: bool,
    isDarkMode: bool)

  const DefaultOptions := RenderOptions([], BottomRight, 280, 0.85, false, true)

  const CardPadding := 16
  const CardMargin := 12
  const CornerRadius := 16
  const EdgeMargin := 32
  const TitleHeight := 24
  const LineHeight := 20
  const CharsPerLine := 30
  const MaxCards := 4

  /** Bytes taken by one Unicode scalar value in UTF-8. */
  function Utf8Width(c: char): (n: nat)
    ensures 1 <= n <= 4
    ensures n == 1 <==> c as int < 0x80
  {
    if c as int < 0x80 then 1
    else if c as int < 0x800 then 2
    else if c as int < 0x1_0000 then 3
    else 4
  }

  /** The UTF-8 byte length of a string (what Rust's `String::len` returns). */
  function Utf8Length(s: string): nat
  {
    if s == [] then 0 else Utf8Length(s[..|s| - 1]) + Utf8Width(s[|s| - 1])
  }

  lemma {:induction false} Utf8LengthBounds(s: string)
    ensures |s| <= Utf8Length(s) <= 4 * |s|
    ensures Utf8Length(s) == |s| <==> forall i | 0 <= i < |s| :: s[i] as int < 0x80
  {
    if s != [] {
      var init := s[..|s| - 1];
      Utf8LengthBounds(init);
      assert forall i | 0 <= i < |init| :: init[i] == s[i];
    }
  }

  /**
   * The number of 30-character lines the content is estimated to wrap to:
   * the least line count, and at least one, whose lines hold n bytes.
   */
  function ContentLines(n: nat): (lines: nat)
    ensures 1 <= lines
    ensures n <= CharsPerLine * lines
    ensures lines == 1 || CharsPerLine * (lines - 1) < n
  {
    if n <= CharsPerLine then 1 else (n + CharsPerLine - 1) / CharsPerLine
  }

  /**
   * The estimated card height: a title band if the title is non-empty, one
   * 20px band per content line, and padding above and below.
   */
  function CardHeight(card: WallpaperCard): (h: int)
    ensures h >= 2 * CardPadding + LineHeight
    ensures h % 4 == 0
    ensures card.title == [] ==> h == 2 * CardPadding + LineHeight * ContentLines(Utf8Length(card.content))
    ensures card.title != [] ==> h == TitleHeight + 2 * CardPadding + LineHeight * ContentLines(Utf8Length(card.content))
  {
    var titleHeight := if card.title == [] then 0 else TitleHeight;
    titleHeight + ContentLines(Utf8Length(card.content)) * LineHeight + CardPadding * 2
  }

  /** Bottom anchors stack cards upward; top anchors stack them downward. */
  predicate StacksUpward(position: CardPosition)
  {
    position == BottomRight || position == BottomLeft
  }

  /** The shared left edge of every card; it is not clamped and may be negative. */
  function StartX(options: RenderOptions, width: nat): (x: int)
    ensures options.position in {BottomRight, TopRight} ==> x + options.cardWidth + EdgeMargin == width
    ensures options.position in {BottomLeft, TopLeft} ==> x == EdgeMargin
  {
    match options.position
    case BottomRight => width - options.cardWidth - EdgeMargin
    case TopRight => width - options.cardWidth - EdgeMargin
    case BottomLeft => EdgeMargin
    case TopLeft => EdgeMargin
  }

  /** Where the running y of the stack starts: the bottom margin line or the top margin line. */
  function StartY(options: RenderOptions, height: nat): (y: int)
    ensures StacksUpward(options.position) ==> y == height - EdgeMargin
    ensures !StacksUpward(options.position) ==> y == EdgeMargin
  {
    match options.position
    case BottomRight => height - EdgeMargin
    case BottomLeft => height - EdgeMargin
    case TopRight => EdgeMargin
    case TopLeft => EdgeMargin
  }

  /** How many cards are measured and drawn: the first four at most. */
  function DrawnCount(options: RenderOptions): nat
  {
    Min(MaxCards, |options.cards|)
  }

  /** The sum of the estimated heights of the given cards. */
  function HeightsSum(cards: seq<WallpaperCard>): (total: int)
    ensures total >= (2 * CardPadding + LineHeight) * |cards|
  {
    if cards == [] then 0 else HeightsSum(cards[..|cards| - 1]) + CardHeight(cards[|cards| - 1])
  }

  lemma HeightsSumStep(cards: seq<WallpaperCard>, i: nat)
    requires i < |cards|
    ensures HeightsSum(cards[..i + 1]) == HeightsSum(cards[..i]) + CardHeight(cards[i])
  {
    assert cards[..i + 1][..i] == cards[..i];
  }

  /**
   * The y of the top edge of card i: with a bottom anchor, the bottom margin
   * line minus the heights of cards 0..i and one 12px gap per card below it;
   * with a top anchor, the top margin plus the heights of cards 0..i-1 and
   * one gap per card above it. Every earlier card takes at least 52 + 12px,
   * so card i is at least 64i px from the anchored margin.
   */
  function CardY(options: RenderOptions, height: nat, i: nat): (y: int)
    requires i < DrawnCount(options)
    ensures StacksUpward(options.position) ==> y + CardHeight(options.cards[i]) + 64 * i <= height - EdgeMargin
    ensures !StacksUpward(options.position) ==> y >= EdgeMargin + 64 * i
  {
    HeightsSumStep(options.cards, i);
    if StacksUpward(options.position) then
      height - EdgeMargin - HeightsSum(options.cards[..i + 1]) - CardMargin * i
    else
      EdgeMargin + HeightsSum(options.cards[..i]) + CardMargin * i
  }

  datatype Box = Box(x: int, y: int, w: int, h: int)

  /** The box of drawn card i: the shared x, its y, card_width wide and as tall as its estimate. */
  function CardBox(options: RenderOptions, width: nat, height: nat, i: nat): (b: Box)
    requires i < DrawnCount(options)
    ensures b.w == options.cardWidth && b.h >= 2 * CardPadding + LineHeight
    ensures StacksUpward(options.position) ==> b.y + b.h + 64 * i <= height - EdgeMargin
    ensures !StacksUpward(options.position) ==> b.y >= EdgeMargin + 64 * i
  {
    Box(StartX(options, width), CardY(options, height, i), options.cardWidth, CardHeight(options.cards[i]))
  }

  /** The boxes of the drawn cards, in input order. */
  function Layout(options: RenderOptions, width: nat, height: nat): (boxes: seq<Box>)
    ensures |boxes| == DrawnCount(options)
    ensures forall i | 0 <= i < |boxes| :: boxes[i].x == StartX(options, width) && boxes[i].w == options.cardWidth
  {
    seq(DrawnCount(options), i requires 0 <= i < DrawnCount(options) => CardBox(options, width, height, i))
  }

  /**
   * Exactly min(4, n) boxes, one per leading card in input order, all at the
   * same x and of width card_width: right-aligned 32px from the right edge
   * for right anchors, 32px from the left edge for left anchors.
   */
  lemma LayoutColumns(options: RenderOptions, width: nat, height: nat)
    ensures |Layout(options, width, height)| == if |options.cards| < 4 then |options.cards| else 4
    ensures forall i | 0 <= i < |Layout(options, width, height)| ::
      var b := Layout(options, width, height)[i];
      && b.w == options.cardWidth
      && b.h == CardHeight(options.cards[i])
      && (options.position in {BottomRight, TopRight} ==> b.x == width - options.cardWidth - 32)
      && (options.position in {BottomLeft, TopLeft} ==> b.x == 32)
  {
  }

  /**
   * The first card sits against the margin: its bottom edge is 32px above
   * the canvas bottom for bottom anchors, its top edge 32px below the canvas
   * top for top anchors.
   */
  lemma LayoutFirstCard(options: RenderOptions, width: nat, height: nat)
    requires options.cards != []
    ensures var b := Layout(options, width, height)[0];
      && (StacksUpward(options.position) ==> b.y + b.h == height - 32)
      && (!StacksUpward(options.position) ==> b.y == 32)
  {
    HeightsSumStep(options.cards, 0);
  }

  /**
   * Consecutive cards are exactly 12px apart: with a bottom anchor card
   * i + 1 ends 12px above the top of card i; with a top anchor card i + 1
   * starts 12px below the bottom of card i.
   */
  lemma LayoutGap(options: RenderOptions, width: nat, height: nat, i: nat)
    requires i + 1 < DrawnCount(options)
    ensures var boxes := Layout(options, width, height);
      && (StacksUpward(options.position) ==> boxes[i + 1].y + boxes[i + 1].h + 12 == boxes[i].y)
      && (!StacksUpward(options.position) ==> boxes[i].y + boxes[i].h + 12 == boxes[i + 1].y)
  {
    HeightsSumStep(options.cards, i);
    HeightsSumStep(options.cards, i + 1);
  }

  /**
   * No two drawn cards overlap: for i < j, card j lies entirely above card i
   * (bottom anchors) or entirely below it (top anchors), at least 12px away.
   */
  lemma {:induction false} LayoutDisjoint(options: RenderOptions, width: nat, height: nat, i: nat, j: nat)
    requires i < j < DrawnCount(options)
    ensures var boxes := Layout(options, width, height);
      && (StacksUpward(options.position) ==> boxes[j].y + boxes[j].h + 12 <= boxes[i].y)
      && (!StacksUpward(options.position) ==> boxes[i].y + boxes[i].h + 12 <= boxes[j].y)
    decreases j - i
  {
    LayoutGap(options, width, height, i);
    if i + 1 < j {
      LayoutDisjoint(options, width, height, i + 1, j);
    }
  }

  /**
   * Stacking order: with a bottom anchor each later card's top edge is
   * strictly higher on screen than every earlier one's; with a top anchor,
   * strictly lower.
   */
  lemma LayoutOrder(options: RenderOptions, width: nat, height: nat, i: nat, j: nat)
    requires i < j < DrawnCount(options)
    ensures var boxes := Layout(options, width, height);
      && (StacksUpward(options.position) ==> boxes[j].y < boxes[i].y)
      && (!StacksUpward(options.position) ==> boxes[i].y < boxes[j].y)
  {
    LayoutDisjoint(options, width, height, i, j);
  }

  /** Cards after the fourth are never measured: they cannot change the layout. */
  lemma {:induction false} LayoutIgnoresLaterCards(options: RenderOptions, extra: seq<WallpaperCard>, width: nat, height: nat)
    requires |options.cards| >= MaxCards
    ensures Layout(options.(cards := options.cards + extra), width, height) == Layout(options, width, height)
  {
    var longer := options.(cards := options.cards + extra);
    forall i | 0 <= i < DrawnCount(options)
      ensures CardBox(longer, width, height, i) == CardBox(options, width, height, i)
    {
      assert longer.cards[..i + 1] == options.cards[..i + 1];
      assert longer.cards[..i] == options.cards[..i];
    }
  }
}

=== FILE: paths.dfy ===
/**
 * Vector paths as the wallpaper engine builds them: a sequence of
 * move/line/quadratic-curve/close operations pushed into a path builder.
 */
module Paths {
  import opened Base

  /** One verb of a path, with integer coordinates. */
  datatype PathOp =
    | MoveTo(x: int, y: int)
    | LineTo(x: int, y: int)
    | QuadTo(cx: int, cy: int, x: int, y: int)
    | Close

  datatype Point = Point(x: int, y: int)

  /**
   * A path builder: every push appends one verb. The builder's
   * normalisations (an implicit move before a stray line, merging of
   * repeated moves) are never triggered by the paths built here.
   */
  class PathBuilder {
    var verbs: seq<PathOp>

    constructor ()
      ensures verbs == []
    {
      verbs := [];
    }

    method MoveTo(x: int, y: int)
      modifies this
      ensures verbs == old(verbs) + [PathOp.MoveTo(x, y)]
    {
      verbs := verbs + [PathOp.MoveTo(x, y)];
    }

    method LineTo(x: int, y: int)
      modifies this
      ensures verbs == old(verbs) + [PathOp.LineTo(x, y)]
    {
      verbs := verbs + [PathOp.LineTo(x, y)];
    }

    method QuadTo(cx: int, cy: int, x: int, y: int)
      modifies this
      ensures verbs == old(verbs) + [PathOp.QuadTo(cx, cy, x, y)]
    {
      verbs := verbs + [PathOp.QuadTo(cx, cy, x, y)];
    }

    method Close()
      modifies this
      ensures verbs == old(verbs) + [PathOp.Close]
    {
      verbs := verbs + [PathOp.Close];
    }

    /** A finished path needs more than a lone move: otherwise there is none. */
    method Finish() returns (path: Option<seq<PathOp>>)
      ensures path.Some? <==> |verbs| >= 2
      ensures path.Some? ==> path.value == verbs
    {
      if |verbs| < 2 {
        path := None;
      } else {
        path := Some(verbs);
      }
    }
  }

  /**
   * The outline of an axis-aligned rounded rectangle with top-left corner
   * (x, y), size w by h and corner radius r: it starts on the top edge just
   * right of the top-left corner and goes clockwise (y grows downward),
   * alternating straight edges with quadratic corners whose control point
   * is the rectangle's own corner. It is a single contour: one move, eight
   * drawing verbs ending where the move started, and a close.
   */
  function RoundedRectPath(x: int, y: int, w: int, h: int, r: int): (p: seq<PathOp>)
    ensures |p| == 10 && p[0].MoveTo? && p[9] == PathOp.Close
    ensures forall i | 0 < i < 9 :: p[i].LineTo? || p[i].QuadTo?
    ensures p[8].x == p[0].x && p[8].y == p[0].y
  {
    [ PathOp.MoveTo(x + r, y),
      PathOp.LineTo(x + w - r, y),
      PathOp.QuadTo(x + w, y, x + w, y + r),
      PathOp.LineTo(x + w, y + h - r),
      PathOp.QuadTo(x + w, y + h, x + w - r, y + h),
      PathOp.LineTo(x + r, y + h),
      PathOp.QuadTo(x, y + h, x, y + h - r),
      PathOp.LineTo(x, y + r),
      PathOp.QuadTo(x, y, x + r, y),
      PathOp.Close ]
  }

  /** Every point an operation names: its control point, if any, and its end point. */
  function OpPoints(op: PathOp): (ps: seq<Point>)
    ensures |ps| <= 2
  {
    match op
    case MoveTo(x, y) => [Point(x, y)]
    case LineTo(x, y) => [Point(x, y)]
    case QuadTo(cx, cy, x, y) => [Point(cx, cy), Point(x, y)]
    case Close => []
  }

  /** The on-curve points of a path, in drawing order (Close adds none). */
  function Vertices(path: seq<PathOp>): (vs: seq<Point>)
    ensures |vs| <= |path|
  {
    if path == [] then []
    else
      var head := match path[0]
        case MoveTo(x, y) => [Point(x, y)]
        case LineTo(x, y) => [Point(x, y)]
        case QuadTo(_, _, x, y) => [Point(x, y)]
        case Close => [];
      head + Vertices(path[1..])
  }

  /** Twice the signed area swept by a polyline (the shoelace sum). */
  function Shoelace(vs: seq<Point>): int
  {
    if |vs| < 2 then 0
    else vs[0].x * vs[1].y - vs[1].x * vs[0].y + Shoelace(vs[1..])
  }

  predicate InBox(p: Point, x: int, y: int, w: int, h: int)
  {
    x <= p.x <= x + w && y <= p.y <= y + h
  }

  /** The operations are a move, four edge/corner pairs and a close. */
  lemma RoundedRectPathShape(x: int, y: int, w: int, h: int, r: int)
    ensures var p := RoundedRectPath(x, y, w, h, r);
      && |p| == 10
      && p[0] == PathOp.MoveTo(x + r, y)
      && (forall i | 1 <= i <= 7 && i % 2 == 1 :: p[i].LineTo?)
      && (forall i | 2 <= i <= 8 && i % 2 == 0 :: p[i].QuadTo?)
      && p[9] == PathOp.Close
      && p[2].cx == x + w && p[2].cy == y
      && p[4].cx == x + w && p[4].cy == y + h
      && p[6].cx == x && p[6].cy == y + h
      && p[8].cx == x && p[8].cy == y
  {
  }

  /** The on-curve points of the outline: the eight tangent points, then the start again. */
  lemma RoundedRectVertices(x: int, y: int, w: int, h: int, r: int)
    ensures Vertices(RoundedRectPath(x, y, w, h, r)) ==
      [Point(x + r, y), Point(x + w - r, y), Point(x + w, y + r),
       Point(x + w, y + h - r), Point(x + w - r, y + h), Point(x + r, y + h),
       Point(x, y + h - r), Point(x, y + r), Point(x + r, y)]
  {
    var p := RoundedRectPath(x, y, w, h, r);
    assert Vertices(p[9..]) == [];
    assert Vertices(p[8..]) == [Point(x + r, y)];
    assert Vertices(p[7..]) == [Point(x, y + r), Point(x + r, y)];
    assert Vertices(p[6..]) == [Point(x, y + h - r)] + Vertices(p[7..]);
    assert Vertices(p[5..]) == [Point(x + r, y + h)] + Vertices(p[6..]);
    assert Vertices(p[4..]) == [Point(x + w - r, y + h)] + Vertices(p[5..]);
    assert Vertices(p[3..]) == [Point(x + w, y + h - r)] + Vertices(p[4..]);
    assert Vertices(p[2..]) == [Point(x + w, y + r)] + Vertices(p[3..]);
    assert Vertices(p[1..]) == [Point(x + w - r, y)] + Vertices(p[2..]);
  }

  /** The last segment ends where the move started, and the path is closed. */
  lemma RoundedRectPathClosed(x: int, y: int, w: int, h: int, r: int)
    ensures var vs := Vertices(RoundedRectPath(x, y, w, h, r));
      |vs| == 9 && vs[8] == vs[0] == Point(x + r, y)
    ensures RoundedRectPath(x, y, w, h, r)[9] == PathOp.Close
  {
    RoundedRectVertices(x, y, w, h, r);
  }

  /**
   * When the radius fits (0 <= r, 2r <= w, 2r <= h), every end point and
   * every control point of the outline lies inside the rectangle.
   */
  lemma RoundedRectPathContained(x: int, y: int, w: int, h: int, r: int)
    requires 0 <= r && 2 * r <= w && 2 * r <= h
    ensures var p := RoundedRectPath(x, y, w, h, r);
      forall i, j | 0 <= i < |p| && 0 <= j < |OpPoints(p[i])| :: InBox(OpPoints(p[i])[j], x, y, w, h)
  {
  }

  /**
   * Vertically the outline needs only 0 <= r and 2r <= h: every end point
   * and control point lies between the top and bottom edges, whatever the
   * width.
   */
  lemma RoundedRectPathWithinRows(x: int, y: int, w: int, h: int, r: int)
    requires 0 <= r && 2 * r <= h
    ensures var p := RoundedRectPath(x, y, w, h, r);
      forall i, j | 0 <= i < |p| && 0 <= j < |OpPoints(p[i])| :: y <= OpPoints(p[i])[j].y <= y + h
  {
  }

  /** Twice the signed area of the triangle (origin, a, b). */
  function Cross(a: Point, b: Point): int
  {
    a.x * b.y - b.x * a.y
  }

  /**
   * The on-curve vertices turn clockwise on screen (y grows downward):
   * their shoelace sum is twice the area w*h - 2*r*r of the octagon they
   * span, which is positive for a non-degenerate box.
   */
  lemma RoundedRectPathClockwise(x: int, y: int, w: int, h: int, r: int)
    requires 0 <= r && 2 * r <= w && 2 * r <= h && 0 < w && 0 < h
    ensures Shoelace(Vertices(RoundedRectPath(x, y, w, h, r))) == 2 * (w * h - 2 * r * r)
    ensures Shoelace(Vertices(RoundedRectPath(x, y, w, h, r))) > 0
  {
    RoundedRectVertices(x, y, w, h, r);
    ShoelaceUnrolled(Vertices(RoundedRectPath(x, y, w, h, r)));
    OctagonCrossSum(x, y, w, h, r);
    OctagonAreaPositive(w, h, r);
  }

  lemma {:induction false} ShoelaceUnrolled(vs: seq<Point>)
    requires |vs| == 9
    ensures Shoelace(vs) == Cross(vs[0], vs[1]) + Cross(vs[1], vs[2]) + Cross(vs[2], vs[3])
      + Cross(vs[3], vs[4]) + Cross(vs[4], vs[5]) + Cross(vs[5], vs[6])
      + Cross(vs[6], vs[7]) + Cross(vs[7], vs[8])
  {
    assert Shoelace(vs[8..]) == 0;
    assert Shoelace(vs[7..]) == Cross(vs[7], vs[8]) + Shoelace(vs[8..]);
    assert Shoelace(vs[6..]) == Cross(vs[6], vs[7]) + Shoelace(vs[7..]);
    assert Shoelace(vs[5..]) == Cross(vs[5], vs[6]) + Shoelace(vs[6..]);
    assert Shoelace(vs[4..]) == Cross(vs[4], vs[5]) + Shoelace(vs[5..]);
    assert Shoelace(vs[3..]) == Cross(vs[3], vs[4]) + Shoelace(vs[4..]);
    assert Shoelace(vs[2..]) == Cross(vs[2], vs[3]) + Shoelace(vs[3..]);
    assert Shoelace(vs[1..]) == Cross(vs[1], vs[2]) + Shoelace(vs[2..]);
  }

  /** The algebra behind the clockwise lemma, one corner at a time. */
  lemma OctagonCrossSum(x: int, y: int, w: int, h: int, r: int)
    ensures Cross(Point(x + r, y), Point(x + w - r, y))
      + Cross(Point(x + w - r, y), Point(x + w, y + r))
      + Cross(Point(x + w, y + r), Point(x + w, y + h - r))
      + Cross(Point(x + w, y + h - r), Point(x + w - r, y + h))
      + Cross(Point(x + w - r, y + h), Point(x + r, y + h))
      + Cross(Point(x + r, y + h), Point(x, y + h - r))
      + Cross(Point(x, y + h - r), Point(x, y + r))
      + Cross(Point(x, y + r), Point(x + r, y))
      == 2 * (w * h - 2 * r * r)
  {
    assert Cross(Point(x + r, y), Point(x + w - r, y)) == 2 * r * y - w * y;
    assert Cross(Point(x + w - r, y), Point(x + w, y + r)) == x * r + w * r - r * y - r * r;
    assert Cross(Point(x + w, y + r), Point(x + w, y + h - r)) == x * h + w * h - 2 * x * r - 2 * w * r;
    assert Cross(Point(x + w, y + h - r), Point(x + w - r, y + h)) == x * r + w * r + r * y + r * h - r * r;
    assert Cross(Point(x + w - r, y + h), Point(x + r, y + h)) == w * y + w * h - 2 * r * y - 2 * r * h;
    assert Cross(Point(x + r, y + h), Point(x, y + h - r)) == r * y + r * h - x * r - r * r;
    assert Cross(Point(x, y + h - r), Point(x, y + r)) == 2 * x * r - x * h;
    assert Cross(Point(x, y + r), Point(x + r, y)) == - x * r - r * y - r * r;
  }

  lemma OctagonAreaPositive(w: int, h: int, r: int)
    requires 0 <= r && 2 * r <= w && 2 * r <= h && 0 < w && 0 < h
    ensures w * h - 2 * r * r > 0
  {
    assert w * h >= w * (2 * r) by { assert 2 * r <= h; }
    assert w * (2 * r) >= (2 * r) * (2 * r) by { assert 2 * r <= w; }
    if r == 0 {
      assert w * h > 0;
    }
  }
}

=== FILE: pixmaps.dfy ===
/**
 * The drawing surface: a width-by-height grid of premultiplied RGBA pixels
 * stored row by row in one flat buffer, together with the log of the draw
 * calls issued against it (the rasteriser that would turn those calls into
 * pixels is outside the model).
 */
module Pixmaps {
  import opened Base
  import opened Paths

  /** An RGBA colour with 8-bit channels. */
  datatype Rgba = Rgba(r: byte, g: byte, b: byte, a: byte)

  const Transparent := Rgba(0, 0, 0, 0)

  /** A premultiplied colour never has a colour channel above its alpha. */
  predicate IsPremultiplied(c: Rgba)
  {
    c.r <= c.a && c.g <= c.a && c.b <= c.a
  }

  /** A draw call, as issued to the rasteriser. */
  datatype DrawCall =
    | FillRect(x: int, y: int, w: int, h: int, color: Rgba)
    | FillPath(path: seq<PathOp>, color: Rgba)
    | StrokePath(path: seq<PathOp>, color: Rgba, strokeWidth: int)
    | FillCircle(cx: int, cy: int, radius: int, color: Rgba)

  /** A decoded image in RGBA8, pixel (x, y) at index y * width + x. */
  datatype RgbaImage = RgbaImage(width: nat, height: nat, pixels: seq<Rgba>)
  {
    predicate Valid()
    {
      |pixels| == width * height
    }
  }

  /** Position of pixel (x, y) in a row-major buffer of the given width. */
  function PixelIndex(x: int, y: int, width: int): int
  {
    y * width + x
  }

  function Column(i: int, width: int): int
    requires 0 < width
  {
    i % width
  }

  function Row(i: int, width: int): int
    requires 0 < width
  {
    i / width
  }

  lemma {:induction false} MulMonotone(a: int, b: int, c: nat)
    requires a <= b
    ensures a * c <= b * c
    decreases c
  {
    if c > 0 {
      MulMonotone(a, b, c - 1);
    }
  }

  /** The slot after the last pixel of row y is the first slot of row y + 1. */
  lemma NextRow(y: int, w: int)
    ensures PixelIndex(w, y, w) == PixelIndex(0, y + 1, w)
  {
  }

  /** An in-grid pixel's index is a slot of the width-by-height buffer. */
  lemma PixelIndexInRange(x: int, y: int, w: int, h: int)
    requires 0 <= x < w && 0 <= y < h
    ensures 0 <= PixelIndex(x, y, w) < w * h
  {
    MulMonotone(y + 1, h, w);
    MulMonotone(0, y, w);
  }

  lemma RowInRange(i: int, w: int, h: int)
    requires 0 < w && 0 <= i < w * h
    ensures 0 <= Column(i, w) < w && 0 <= Row(i, w) < h && PixelIndex(Column(i, w), Row(i, w), w) == i
  {
    var q := i / w;
    if q >= h {
      MulMonotone(h, q, w);
      assert false;
    }
  }

  /**
   * (x, y) |-> y * width + x is a bijection from the width-by-height grid
   * onto the buffer slots 0 .. width*height - 1: it stays in range, no two
   * pixels share a slot, and every slot is hit (by its column and row).
   */
  lemma PixelIndexBijection(w: int, h: int)
    requires 0 < w && 0 <= h
    ensures forall x, y | 0 <= x < w && 0 <= y < h :: 0 <= PixelIndex(x, y, w) < w * h
    ensures forall x1, y1, x2, y2 | 0 <= x1 < w && 0 <= x2 < w && PixelIndex(x1, y1, w) == PixelIndex(x2, y2, w)
      :: x1 == x2 && y1 == y2
    ensures forall i | 0 <= i < w * h ::
      0 <= Column(i, w) < w && 0 <= Row(i, w) < h && PixelIndex(Column(i, w), Row(i, w), w) == i
  {
    forall x, y | 0 <= x < w && 0 <= y < h
      ensures 0 <= PixelIndex(x, y, w) < w * h
    {
      PixelIndexInRange(x, y, w, h);
    }
    forall x1, y1, x2, y2 | 0 <= x1 < w && 0 <= x2 < w && PixelIndex(x1, y1, w) == PixelIndex(x2, y2, w)
      ensures x1 == x2 && y1 == y2
    {
      SameSlotSamePixel(x1, y1, x2, y2, w);
    }
    forall i | 0 <= i < w * h
      ensures 0 <= Column(i, w) < w && 0 <= Row(i, w) < h && PixelIndex(Column(i, w), Row(i, w), w) == i
    {
      RowInRange(i, w, h);
    }
  }

  lemma SameSlotSamePixel(x1: int, y1: int, x2: int, y2: int, w: int)
    requires 0 <= x1 < w && 0 <= x2 < w
    requires PixelIndex(x1, y1, w) == PixelIndex(x2, y2, w)
    ensures x1 == x2 && y1 == y2
  {
    if y1 < y2 {
      MulMonotone(y1 + 1, y2, w);
      assert false;
    } else if y2 < y1 {
      MulMonotone(y2 + 1, y1, w);
      assert false;
    }
  }

  /**
   * The length of the longest prefix of premultiplied colours: the index of
   * the first pixel that a premultiplied buffer cannot hold, if there is one.
   */
  function PremultipliedPrefix(s: seq<Rgba>): (n: nat)
    ensures n <= |s|
    ensures forall i | 0 <= i < n :: IsPremultiplied(s[i])
    ensures n < |s| ==> !IsPremultiplied(s[n])
  {
    if s == [] || !IsPremultiplied(s[0]) then 0 else 1 + PremultipliedPrefix(s[1..])
  }

  /**
   * A pixel buffer that rendering mutates in place. `draws` records, in
   * order, every draw call issued against it; `pixels` holds the copied
   * background.
   */
  class Pixmap {
    const width: nat
    const height: nat
    const pixels: array<Rgba>
    var draws: seq<DrawCall>

    ghost predicate Valid()
      reads this
    {
      0 < width && 0 < height && pixels.Length == width * height
    }

    /** A fresh, fully transparent pixmap with no draws yet. */
    constructor (w: nat, h: nat)
      requires 0 < w && 0 < h
      ensures Valid() && width == w && height == h && fresh(pixels)
      ensures forall i | 0 <= i < pixels.Length :: pixels[i] == Transparent
      ensures draws == []
    {
      width, height := w, h;
      pixels := new Rgba[w * h](_ => Transparent);
      draws := [];
    }

    method FillRect(x: int, y: int, w: int, h: int, color: Rgba)
      modifies this
      ensures draws == old(draws) + [DrawCall.FillRect(x, y, w, h, color)]
    {
      draws := draws + [DrawCall.FillRect(x, y, w, h, color)];
    }

    method FillPath(path: seq<PathOp>, color: Rgba)
      modifies this
      ensures draws == old(draws) + [DrawCall.FillPath(path, color)]
    {
      draws := draws + [DrawCall.FillPath(path, color)];
    }

    method StrokePath(path: seq<PathOp>, color: Rgba, strokeWidth: int)
      modifies this
      ensures draws == old(draws) + [DrawCall.StrokePath(path, color, strokeWidth)]
    {
      draws := draws + [DrawCall.StrokePath(path, color, strokeWidth)];
    }

    method FillCircle(cx: int, cy: int, radius: int, color: Rgba)
      modifies this
      ensures draws == old(draws) + [DrawCall.FillCircle(cx, cy, radius, color)]
    {
      draws := draws + [DrawCall.FillCircle(cx, cy, radius, color)];
    }
  }

  /** A pixmap exists only for a non-empty grid. */
  method NewPixmap(w: nat, h: nat) returns (p: Option<Pixmap>)
    ensures p.Some? <==> 0 < w && 0 < h
    ensures p.Some? ==>
      && fresh(p.value) && fresh(p.value.pixels) && p.value.Valid()
      && p.value.width == w && p.value.height == h && p.value.draws == []
      && forall i | 0 <= i < p.value.pixels.Length :: p.value.pixels[i] == Transparent
  {
    if w == 0 || h == 0 {
      p := None;
    } else {
      var pm := new Pixmap(w, h);
      p := Some(pm);
    }
  }

  /**
   * Copies the decoded background into the pixmap, visiting pixels row by
   * row and writing pixel (x, y) to slot y * width + x. A pixel whose colour
   * channel exceeds its alpha aborts the copy (the source unwraps a failed
   * conversion and panics): `ok` is false and exactly the pixels before it
   * have been written.
   */
  method CopyBackground(pixmap: Pixmap, image: RgbaImage) returns (ok: bool)
    requires pixmap.Valid() && image.Valid()
    requires pixmap.width == image.width && pixmap.height == image.height
    modifies pixmap.pixels
    ensures ok <==> PremultipliedPrefix(image.pixels) == |image.pixels|
    ensures forall i | 0 <= i < PremultipliedPrefix(image.pixels) :: pixmap.pixels[i] == image.pixels[i]
    ensures forall i | PremultipliedPrefix(image.pixels) <= i < pixmap.pixels.Length ::
      pixmap.pixels[i] == old(pixmap.pixels[i])
  {
    var w, h := image.width, image.height;
    var k := 0;
    for y := 0 to h
      invariant k == PixelIndex(0, y, w) && k <= pixmap.pixels.Length
      invariant forall i | 0 <= i < k :: pixmap.pixels[i] == image.pixels[i]
      invariant forall i | k <= i < pixmap.pixels.Length :: pixmap.pixels[i] == old(pixmap.pixels[i])
      invariant k <= PremultipliedPrefix(image.pixels)
    {
      for x := 0 to w
        invariant k == PixelIndex(x, y, w) && k <= pixmap.pixels.Length
        invariant forall i | 0 <= i < k :: pixmap.pixels[i] == image.pixels[i]
        invariant forall i | k <= i < pixmap.pixels.Length :: pixmap.pixels[i] == old(pixmap.pixels[i])
        invariant k <= PremultipliedPrefix(image.pixels)
      {
        PixelIndexInRange(x, y, w, h);
        var pixel := image.pixels[PixelIndex(x, y, w)];
        if !IsPremultiplied(pixel) {
          assert PremultipliedPrefix(image.pixels) == k;
          return false;
        }
        pixmap.pixels[PixelIndex(x, y, w)] := pixel;
        k := k + 1;
      }
      NextRow(y, w);
      PixelIndexInRange(0, y, w, h);
    }
    assert PixelIndex(0, h, w) == |image.pixels|;
    return true;
  }
}
